=== FILE: README.md ===
# Refrigerated delivery truck simulation — Dafny model

This project models the simulation engine of a single refrigerated delivery
truck, as implemented in `app.js`. The engine has four parts:

- **The tick** (`UpdateTruck`). Each tick runs the cooling fan, the cargo
  temperature and the melting accumulator. It then advances the task clock
  and moves through the six task states: `ready`, `enroute`, `delivering`,
  `returning`, `loading` and `dumping`.
- **The position tracker** (`UpdatePosition`). This is a cursor over the
  route's segments. It skips the segments the truck has finished, then
  interpolates inside the current one.
- **Route planning** (`GetRoute`, `ReturnToBase`). It parks the truck in
  `ready` and asks the routing service for a route. When the answer comes
  back, it builds the path and the per-segment durations at the route's
  average speed.
- **The two remote commands** (`CmdGoToCustomer`, `CmdRecall`). Each checks
  the truck's state. It then either records an event text or starts route
  planning.

Everything is a pure function over an immutable `Truck` record. The outside
world comes in as explicit parameters:

- the `Math.random()` draws are `Rolls` values in [0,1);
- the distance between two points is a function parameter `dist`, and
  arrival is `dist < 10`;
- the routing service's answer is an `OracleResult`: either
  `Routed(points, meters, seconds)` or `NoRoute`.

`GetRoute` is split the way the program splits it. `BeginRoute` is the
synchronous part: it sets the state to `ready` and emits a `Request`.
`CompleteRoute` is the promise callback. It reads the truck's position and
destination at the time it runs, as the callback reads the globals. Any
interleaving of ticks, commands and answers is a sequence of `Action`s.
`Invariants.Run` applies such a sequence and preserves the invariants.

Modules: `TruckTypes` (data model and constants), `Events` (event texts),
`Position`, `Routing`, `Simulation`, `Commands`, `Invariants` and
`Findings`.

Behaviour that is easy to misread:

- When a delivery completes (app.js:356-362), the truck goes to `ready`, not
  straight to `returning`. It stays `ready` until the route home arrives, and
  the task clock is not reset on that tick.
- The comment at app.js:118 promises a fraction from 0 to 1, but app.js:119
  clamps it only from above. `Position.PositionOnCurrentSegment` proves that
  it is non-negative when segment durations are positive and the cursor is
  behind the clock.
- The routing failure is reported as "Failed to find Map route"
  (app.js:187).
- The distance formula in app.js:99 is not the haversine formula. Its outer
  `Math.cos(` closes only at the end of the line, so it takes the cosine of
  `lat1 * cos(lat2) * sin²(dlon/2)` (in radians) instead of multiplying
  `cos(lat1) * cos(lat2) * sin²(dlon/2)`. Equal points come out π·6371000
  meters (about 20,015 km) apart, and nearby points at different latitudes
  give `Math.sqrt` of a negative number, so their distance is NaN. The
  model therefore takes the distance as a parameter, and the consequence is
  the first row under "## Findings".

## Model

| member | source | states |
|---|---|---|
| Position.Advance | app.js:112-116 | The cursor never passes the last segment and never moves back. If it started at the prefix sum of the segments before it, it ends at the prefix sum again. It skips only segments that end before the task clock. It stops at the last segment or at the first segment that is not finished. It never runs ahead of the clock. |
| Position.UpdatePosition | app.js:111-125 | The position update keeps the cursor valid. It leaves the path and the durations unchanged. It moves the cursor only forward, keeps the prefix-sum relation, and does not let the cursor run ahead of the clock. On a segment of positive time `d`, the new position's offset from the segment start, times `d`, is the segment's extent times the time driven on it, `min(d, clock - completed)`, in each coordinate. |
| Position.Fraction | app.js:119 | The share of the segment driven is never above 1. On a positive duration it is not negative for a non-negative elapsed time, it is exactly 1 once the segment's time has passed, and before that, multiplied by the duration, it gives back the elapsed time. |
| Position.PositionOnCurrentSegment | app.js:119-124 | With positive durations and the cursor not ahead of the clock, the fraction lies in [0,1]. The new position lies on the segment from `path[i]` to `path[i+1]`, where `i` is the cursor's segment. It is the point reached after the share `x / d` of that segment, where `d` is the segment's time and `x` the time driven on it, `clock - completed` capped at `d`. |
| Position.OvershootPinsToDestination | app.js:112-124 | On a route whose segment times are all positive, with the cursor at the prefix sum of the segments before it, a clock at or past the total route time moves the cursor to the last segment. The position is then the last waypoint. |
| Position.HalfwayAlongSecondSegment | app.js:111-125 | The path is (0,0), (0,1), (0,2) with durations 100 and 100. After 150 seconds, the cursor is on segment 1 with 100 seconds completed, and the position is (0, 1.5). |
| Routing.SegmentTimes | app.js:157-177 | There is one duration per leg. Each duration, driven at the route's average speed, covers exactly that leg's distance. |
| Routing.SegmentTimesTotal | app.js:157-177 | The durations, multiplied by the average speed, add up to the summed leg distances. |
| Routing.RouteTimeMatchesService | app.js:158-177 | Suppose the service's route length equals the summed leg distances. Then the planned durations add up to the service's travel time. |
| Routing.BeginRoute | app.js:128-136 | Starting to plan parks the truck in `ready` and changes nothing else. It requests a route from the current position to the destination, with the target state. Its partner is `Simulation.PlanningHoldsTruck`. |
| Routing.CompleteRoute | app.js:137-188 | On success, the path is `[current] ++ points ++ [destination]` with one duration per leg at the average speed. The cursor, completed time and task clock are reset to 0, the state becomes the target, and nothing else changes. On failure, only the event text changes, to `RouteNotFound`. |
| Routing.ReturnToBase | app.js:238-244 | The destination becomes base, the truck is parked in `ready`, and a route home with target `returning` is requested. Its partners are `Routing.ReturnHomeRouted` and `Routing.ReturnHomeUnrouted`. |
| Routing.ReturnHomeRouted | app.js:238-244 | For every truck, heading home and then getting a route gives a `returning` truck with destination base. Its cursor is valid and at the start, and its path runs from where it stood to base. Contents and event text are unchanged. |
| Routing.ReturnHomeUnrouted | app.js:238-244 | For every truck, heading home with no route coming back leaves it `ready`, with base as destination, its old route, and the failure reported. |
| Routing.FailedPlanningLeavesTruckReady | app.js:130-188 | Begin followed by a failed answer leaves the truck `ready`, at the same place, with the old route, reporting the failure. |
| Routing.SuccessfulPlanningStartsTarget | app.js:130-183 | Begin followed by a successful answer puts the truck in the target state. Its clock is 0, its cursor is valid, and its path runs from its position to its destination. |
| Events.EventText | app.js:187-260 | Only the absence of an event reads "none", the sentinel of app.js:44. |
| Events.EventTextInjective | app.js:187-260 | Two events reported with the same text are the same event, including the customer number and the busy state they name. |
| Events.IntToStringInjective | app.js:214 | Distinct integers render as distinct texts. |
| Events.ParseNatToString | app.js:214 | Reading back the decimal rendering of a number gives the number. |
| Events.NewCustomerTextIdentifiesCustomer | app.js:214 | Two "New customer" texts that are equal name the same customer. |
| Simulation.Arrived | app.js:106-109 | A truck has arrived exactly when it is less than 10 meters from its destination. So a truck standing on its destination has arrived, under any distance that is zero between equal points. The distance of app.js:95-104 is not such a distance (see "## Findings"). |
| Simulation.CargoFan | app.js:291-308 | A failed fan stays failed, and a draw below 1% fails the fan. Otherwise the fan goes off below five degrees under the optimum and on above the optimum, and keeps its setting in between. |
| Simulation.Thermal | app.js:282-333 | The thermal block changes only the fan, temperature, accumulator and contents. A failed fan stays failed. A fan newly fails only with cargo aboard and a draw below 1%, and with cargo aboard such a draw always fails it. With cargo, a working fan and no failure draw, the fan follows the band: off below five degrees under the optimum, on above the optimum, unchanged in between. With no cargo, it stays empty, the fan is not on and the accumulator is untouched. Cargo never becomes empty here and never becomes full again. Full cargo starts melting exactly when the new temperature is at least 2 and the accumulator has reached 60. The accumulator stays non-negative. A fan that ends up on moves the temperature by at least -3 and less than 2. Otherwise it moves by at least -2.9 and less than 3.1. |
| Simulation.Clocked | app.js:335 | The task clock advances by exactly the interval. The state, route and position are untouched. |
| Simulation.Tick | app.js:281-410 | A tick only makes state changes from the `TickEdge` table; it never dispatches. It starts planning exactly when a delivery reaches 600 seconds. That planning heads home with the cargo emptied and the truck parked `ready`. In an unchanged state, the clock advances by the interval, except that `ready` pins it to 0. Every other state change resets the clock, except the end of a delivery, which keeps the advanced clock. `loading`, `dumping` and `delivering` end exactly at 800, 400 and 600 seconds. The position moves only while driving, and the destination changes only when a delivery ends and heads home. Unless loading completes, the fan and temperature are the thermal block's. The cargo becomes full when loading completes and empty when dumping or a delivery completes; otherwise it is the thermal block's. The accumulator is the thermal block's. |
| Simulation.AccumulatorRule | app.js:319-332 | With cargo aboard and a new temperature of at least 2, the accumulator grows by the interval, and at 60 or more the cargo is melting. Full cargo starts melting only then. Otherwise it drops by the interval, floored at 0. With no cargo it is unchanged. It is never negative. |
| Simulation.FanFailureIsSticky | app.js:282-349 | A failed fan leaves `failed` exactly when the tick completes loading. The fan is then on and the cargo at -2 degrees. |
| Simulation.MeltingIsOneWay | app.js:319-349 | Cargo that is not full becomes full exactly when the tick completes loading. |
| Simulation.EmptyingOnlyOnCompletion | app.js:356-408 | Cargo becomes empty exactly when dumping reaches 400 seconds or a delivery reaches 600 seconds. |
| Simulation.ArrivalFinishesDrive | app.js:365-398 | A driving truck changes state exactly when it has arrived. En route becomes `delivering`. Returning picks `loading`, `ready` or `dumping` for cargo that is empty, full or melting. |
| Simulation.StartupTickStaysReady | app.js:281-354 | One 60-second tick from start-up, with draws that keep the cargo cold, leaves the truck `ready`, full, with the fan on and the clock pinned at 0. |
| Simulation.Ticks | app.js:352-353 | Any number of ticks with no routing answer keep a `ready` truck `ready`, with the same route, position and destination, and each tick pins its clock to 0. |
| Simulation.PlanningHoldsTruck | app.js:128-131 | Between starting to plan and the answer, any number of ticks leave the truck parked `ready` where it was, on its old route and heading for the same destination. So no tick drives a route that has not arrived. |
| Simulation.DeliveryEndsReturning | app.js:356-362 | A delivery whose clock reaches 600 seconds empties the truck. Once the route home arrives, the truck is `returning` towards base. |
| Commands.GoToCustomer | app.js:191-227 | A dispatch starts planning exactly when the index is in range, the state is `ready`, `enroute` or `returning`, and there is cargo. It then sets the destination to that customer, reports "New customer" and parks the truck `ready`, with target `enroute`. Otherwise only the event text changes: invalid customer, unable to act in the busy state, or unable to act when empty. |
| Commands.Recall | app.js:246-266 | A recall starts the route home exactly from `enroute`. Otherwise only the event text changes: already at base, already returning, or unable to recall while delivering. |
| Commands.EmptyReadyTruckRefusesDispatch | app.js:205-210 | An empty truck in `ready` refuses a dispatch and keeps its destination and state. |
| Commands.RecallWhileDeliveringRefused | app.js:259-261 | A recall while delivering plans nothing and reports "Unable to recall - delivering". |
| Invariants.InitialSatisfiesInv | app.js:46-81 | The start-up truck satisfies the invariant. |
| Invariants.TickPreservesInv | app.js:281-410 | A tick keeps the accumulator non-negative. While driving, it keeps the cursor valid, at the prefix sum, and not ahead of the clock, and the route ends at the destination. |
| Invariants.CommandsPreserveInv | app.js:191-275 | Both commands preserve the invariant. |
| Invariants.AnswerPreservesInv | app.js:137-188 | A routing answer, successful or not, preserves the invariant. |
| Invariants.Run | app.js:281-410 | Any sequence of ticks, commands and routing answers preserves the invariant. |
| Invariants.ReachableStatesAreSound | app.js:111-125 | From start-up, whatever happens, the accumulator is non-negative, and a driving truck's cursor is on a segment of its route, which ends at the truck's destination. |
| Invariants.DrivingTruckStaysOnRoute | app.js:111-125 | During a tick on a route with positive durations, the truck ends on the straight segment its cursor points at. |
| Invariants.DriveEndsOnTime | app.js:365-398 | Take any truck that satisfies the invariant and is driving on a route whose segment times are all positive, and suppose the clock reaches the route's total time. Then the tick puts it on the destination. Under any distance that is zero between equal points it has arrived, so en route becomes `delivering`, and returning becomes `loading`, `ready` or `dumping` for cargo that is empty, full or melting. |
| Findings.TickAsWritten | app.js:337-340 | As written, a tick in `loading` ends the process on the ReferenceError, and only a tick in `loading` does. Every other tick is the intended one. |
| Findings.TicksAsWritten | app.js:337-340 | As written, if a run of ticks survives, none of its ticks started in `loading`. While it survives, it agrees with the intended ticks. |
| Findings.NeverRefilledAsWritten | app.js:338-344 | As written, through any run of ticks, a truck that is not full is never full again while the process survives. |
| Findings.ReturnedEmptyHaltsNextTick | app.js:371-385 | As written, a tick of an empty truck driving back to base does not end the process. The truck switches to `loading` exactly when it has arrived, and then the next tick ends the process. With the distance as written it never arrives (`Findings.NothingArrivesAsWritten`). |
| Findings.DriveNeverEndsAsWritten | app.js:95-109 | Under a distance that never reports two points within 10 meters, as app.js:99 does, a tick never detects an arrival: a truck that is `ready`, `enroute` or `returning` keeps its state and plans nothing. |
| Findings.NothingArrivesAsWritten | app.js:95-109 | Under such a distance, any sequence of ticks, commands and the routing answers the program requests (target `enroute` or `returning`) keeps a truck that satisfies the invariant in `ready`, `enroute` or `returning`. |
| Findings.LoadingErrorLatentAsWritten | app.js:337-340 | Under such a distance, from start-up, whatever happens, the truck never reaches `delivering`, `loading` or `dumping`, and the next tick as written never ends the process. |
| Findings.LoadingThresholdDiscrepancy | app.js:338-344 | Take a loading truck at 740 seconds and a 60-second tick. As written the process ends; with the intended threshold the truck is `ready`. |
| Findings.LoadingCompletes | app.js:338-349 | With the intended threshold, a loading truck whose clock reaches 800 seconds becomes ready and full. Its fan is on and the cargo at -2 degrees, and its clock is 0. |
| Findings.CustomerAsWritten | app.js:196-217 | As written, the check rejects exactly the payloads out of range. Of the rest, only whole payloads find a customer, and what they find is a listed customer. Fractional payloads find nothing. |
| Findings.FractionalCustomerThrows | app.js:196-216 | A payload of 1.5 passes the check as written. A truck that could take a dispatch then reaches the lookup of an undefined customer and throws. |
| Findings.WholePayloadAgrees | app.js:196-217 | On whole payloads the lookup as written finds a customer exactly when the index is in range, and never throws. An accepted dispatch heads for the customer it finds. |
| Findings.AcceptedDispatchHeadsForCustomer | app.js:196-217 | With an integer payload, an accepted dispatch is in range and heads for one of the listed customers. |

## Left out

- The Azure IoT transport is left out because it is input and output through foreign SDKs. This covers the telemetry record and `sendEvent` (app.js:412-457), the device properties (app.js:459-472), the settings handler and its one-second delay (app.js:474-516), the connection set-up (app.js:518-559) and the command acknowledgements (app.js:229-235, 268-274). Clearing the event text after it is sent is also left out.
- The operator's `OptimalTemperature` setting is not modelled as an operation. `optimal` is a field of the truck that the thermal block reads.
- The Azure Maps call and its 10-second abort (app.js:136) are replaced by the `OracleResult` parameter. A timeout is the same as `NoRoute`. No other promise timing is modelled.
- `DistanceInMeters` and `Degrees2Radians` (app.js:91-104) are floating-point trigonometry. The distance is a function parameter. The lemmas for the intended behaviour assume only that it is zero between equal points; the ones for the program as written assume only that it is never below 10 meters.
- `Math.random` (app.js:277-279) is replaced by `Rolls` parameters.
- The console and chalk logging (app.js:83-89) is left out.
- Numbers are exact reals, not IEEE doubles. Rounding in the temperature drifts and in the interpolation is not modelled. `Events.IntToString` writes every integer in plain decimal, but JavaScript writes magnitudes of 1e21 and more in exponent form ("1e+21"). So for such a payload the "Invalid customer: " text (app.js:226) differs.
- Position.Fraction: a zero-length segment is modelled as fraction 1. That matches JavaScript's `min(1, x/0)` for positive `x`. The NaN of `0/0` and the `-Infinity` of a negative `x` over 0 are not modelled.
- Routing.CompleteRoute requires an answer with positive length and travel time. With a zero, JavaScript would divide by zero and produce Infinity or NaN durations, which reals cannot express.
- In the initial state, `destinationLat`/`destinationLon`, `truckOnSection` and `truckSectionsCompletedTime` are undefined (app.js:54-55, 80-81). The model starts them at base, 0 and 0. They are read only after a route has been installed.
- Commands.GoToCustomer takes the payload as an integer. For a payload that is not a whole number, the model covers only the check and the lookup, which throws (`Findings.CustomerAsWritten`). It does not cover the event text such a payload produces.
- A routing answer that arrives after a later command is applied as it comes, as the program does. The model adds no staleness check.

## Findings

| source | as written | input that shows it | evidently intended | confidence | as-written member | corrected member |
|---|---|---|---|---|---|---|
| app.js:99 | the outer `Math.cos` wraps `lat1 * cos(lat2) * sin²(dlon/2)`, so equal points are π·6371000 meters apart and nearby points at different latitudes are NaN apart. For latitudes in [-90, 90] the distance is never below 10 meters, so `Arrived()` (app.js:106-109) is never true: no drive ever ends, and `delivering`, `loading` and `dumping` are never reached | a truck standing on its destination, e.g. (0, 0) and (0, 0): distance π·6371000 | the haversine term `cos(lat1) * cos(lat2) * sin²(dlon/2)`, a distance that is zero between equal points, so that a drive ends on time | high (not executed) | Findings.NothingArrivesAsWritten | Invariants.DriveEndsOnTime |
| app.js:339 | compares with `loadingTime`, but only `loadingTIme` is declared (app.js:40). The `loading` case throws a ReferenceError inside the timer callback (app.js:532, 415). Nothing catches it, so the process ends at the first tick in `loading`. `loading` is entered only when a returning truck's arrival is detected, which the distance as written (row above) prevents, so the error is latent until that distance is corrected (`Findings.LoadingErrorLatentAsWritten`) | any truck in `loading`, e.g. clock at 740 with a 60-second tick | loading ends at 800 seconds with the truck ready, full, fan on, cargo at -2 degrees | high (not executed) | Findings.TickAsWritten | Findings.LoadingCompletes |
| app.js:196 | checks only `num >= 0 && num < customer.length`, so a fractional payload passes. `customer[num]` is undefined, so `customer[num][0]` (app.js:216) throws a TypeError after the event text is set (app.js:214), and the acknowledgement (app.js:230) is never sent | payload 1.5 to a full truck in `ready` | accept only integer indexes in range | medium (not executed) | Findings.FractionalCustomerThrows | Findings.AcceptedDispatchHeadsForCustomer |

=== FILE: commands.dfy ===
/**
  The two remote commands (app.js:191-236, 246-275). Each checks the truck's
  state, and either records why it refused or starts planning a route. The
  acknowledgement sent back to the caller does not depend on the outcome and
  is not modelled.
 */
module Commands {
  import opened TruckTypes
  import opened Routing
  import Events

  /** The states from which a dispatch may be accepted (app.js:205-207). */
  predicate Dispatchable(s: TaskState) {
    s == Ready || s == Enroute || s == Returning
  }

  /** CmdGoToCustomer (app.js:191-236) for customer number `num`. */
  function GoToCustomer(t: Truck, num: int): (r: Step)
    ensures r.planning.Some? <==> 0 <= num < |Customers| && Dispatchable(t.state) && t.contents != Empty
    ensures r.planning.None? ==> r.truck == t.(event := r.truck.event) && r.truck.event != NoEvent
    ensures r.planning.Some? ==>
              && r.truck == t.(event := NewCustomer(num), destination := Customers[num], state := Ready)
              && r.planning.value == Request(t.current, Customers[num], Enroute)
    ensures !(0 <= num < |Customers|) ==> r.truck.event == InvalidCustomer(num)
    ensures 0 <= num < |Customers| && !Dispatchable(t.state) ==> r.truck.event == UnableToAct(t.state)
    ensures 0 <= num < |Customers| && Dispatchable(t.state) && t.contents == Empty ==>
              r.truck.event == UnableToActEmpty
  {
    if 0 <= num < |Customers| then
      match t.state
      case Dumping => Step(t.(event := UnableToAct(t.state)), None)
      case Loading => Step(t.(event := UnableToAct(t.state)), None)
      case Delivering => Step(t.(event := UnableToAct(t.state)), None)
      case _ =>
        if t.contents == Empty then Step(t.(event := UnableToActEmpty), None)
        else BeginRoute(t.(event := NewCustomer(num), destination := Customers[num]), Enroute)
    else
      Step(t.(event := InvalidCustomer(num)), None)
  }

  /** CmdRecall (app.js:246-275). */
  function Recall(t: Truck): (r: Step)
    ensures r.planning.Some? <==> t.state == Enroute
    ensures r.planning.None? ==> r.truck == t.(event := r.truck.event) && r.truck.event != NoEvent
    ensures r.planning.Some? ==>
              && r.truck == t.(destination := Base, state := Ready)
              && r.planning.value == Request(t.current, Base, Returning)
    ensures t.state == Ready || t.state == Loading || t.state == Dumping ==> r.truck.event == AlreadyAtBase
    ensures t.state == Returning ==> r.truck.event == AlreadyReturning
    ensures t.state == Delivering ==> r.truck.event == UnableToRecall(Delivering)
  {
    match t.state
    case Ready => Step(t.(event := AlreadyAtBase), None)
    case Loading => Step(t.(event := AlreadyAtBase), None)
    case Dumping => Step(t.(event := AlreadyAtBase), None)
    case Returning => Step(t.(event := AlreadyReturning), None)
    case Delivering => Step(t.(event := UnableToRecall(t.state)), None)
    case Enroute => ReturnToBase(t)
  }

  /** An empty truck waiting at base refuses a dispatch and keeps its
      destination and state. */
  lemma EmptyReadyTruckRefusesDispatch(t: Truck, num: int)
    requires t.state == Ready && t.contents == Empty
    ensures var r := GoToCustomer(t, num);
            && r.planning.None?
            && r.truck.destination == t.destination
            && r.truck.state == Ready
  {
  }

  /** A recall during a delivery is refused with a message naming the
      delivery, and no route is planned. */
  lemma RecallWhileDeliveringRefused(t: Truck)
    requires t.state == Delivering
    ensures var r := Recall(t);
            && r.planning.None?
            && r.truck == t.(event := UnableToRecall(Delivering))
            && Events.EventText(r.truck.event) == "Unable to recall - delivering"
  {
  }
}

=== FILE: events.dfy ===
/**
  The operator-facing event texts (app.js:187, 202, 209, 214, 226, 252, 256,
  260) and the decimal rendering of customer numbers they embed.
 */
module Events {
  import opened TruckTypes

  /** The lower-case name the program gives each task state (app.js:18-25). */
  function StateName(s: TaskState): string {
    match s
    case Ready => "ready"
    case Enroute => "enroute"
    case Delivering => "delivering"
    case Returning => "returning"
    case Loading => "loading"
    case Dumping => "dumping"
  }

  predicate IsDigit(c: char) {
    '0' <= c <= '9'
  }

  function Digit(d: nat): (c: char)
    requires d < 10
    ensures IsDigit(c)
  {
    "0123456789"[d]
  }

  function DigitValue(c: char): nat
    requires IsDigit(c)
  {
    (c as int - '0' as int) as nat
  }

  /** Decimal digits of a natural number, most significant first. */
  function NatToString(n: nat): (s: string)
    ensures |s| >= 1
    ensures forall i :: 0 <= i < |s| ==> IsDigit(s[i])
  {
    if n < 10 then [Digit(n)] else NatToString(n / 10) + [Digit(n % 10)]
  }

  /** Value of a string of decimal digits. */
  function ParseNat(s: string): nat
    requires forall i :: 0 <= i < |s| ==> IsDigit(s[i])
  {
    if |s| == 0 then 0 else ParseNat(s[..|s| - 1]) * 10 + DigitValue(s[|s| - 1])
  }

  /** JavaScript's rendering of an integer: a leading minus sign exactly for
      negative numbers. */
  function IntToString(i: int): (r: string)
    ensures |r| > 0 && (r[0] == '-' <==> i < 0)
  {
    if i < 0 then "-" + NatToString(-i) else NatToString(i)
  }

  /** Reading back the rendering of a number gives the number. */
  lemma {:induction false} ParseNatToString(n: nat)
    ensures ParseNat(NatToString(n)) == n
  {
    if n >= 10 {
      var front := NatToString(n / 10);
      var s := NatToString(n);
      assert s == front + [Digit(n % 10)];
      assert s[..|s| - 1] == front;
      ParseNatToString(n / 10);
    }
  }

  /** The text each event is reported with; only the absence of an event
      reads "none" (app.js:44). */
  function EventText(e: Event): (r: string)
    ensures r == "none" <==> e == NoEvent
  {
    match e
    case NoEvent => "none"
    case UnableToAct(s) => "Unable to act - " + StateName(s)
    case UnableToActEmpty => "Unable to act - empty"
    case NewCustomer(n) => "New customer: " + IntToString(n)
    case InvalidCustomer(n) => "Invalid customer: " + IntToString(n)
    case AlreadyAtBase => "Already at base"
    case AlreadyReturning => "Already returning"
    case UnableToRecall(s) => "Unable to recall - " + StateName(s)
    case RouteNotFound => "Failed to find Map route"
  }

  /** The "new customer" text names exactly one customer: two dispatches
      reported with the same text went to the same customer. */
  lemma NewCustomerTextIdentifiesCustomer(a: nat, b: nat)
    requires EventText(NewCustomer(a)) == EventText(NewCustomer(b))
    ensures a == b
  {
    var prefix := "New customer: ";
    assert (prefix + NatToString(a))[|prefix|..] == NatToString(a);
    assert (prefix + NatToString(b))[|prefix|..] == NatToString(b);
    ParseNatToString(a);
    ParseNatToString(b);
  }

  /** Distinct integers render differently. */
  lemma IntToStringInjective(i: int, j: int)
    requires IntToString(i) == IntToString(j)
    ensures i == j
  {
    if i < 0 && j < 0 {
      NegativeText(i);
      NegativeText(j);
      NatToStringInjective(-i, -j);
    } else if i >= 0 && j >= 0 {
      NatToStringInjective(i, j);
    }
  }

  lemma NatToStringInjective(a: nat, b: nat)
    requires NatToString(a) == NatToString(b)
    ensures a == b
  {
    ParseNatToString(a);
    ParseNatToString(b);
  }

  lemma NegativeText(i: int)
    requires i < 0
    ensures IntToString(i)[0] == '-' && IntToString(i)[1..] == NatToString(-i)
  {
    var s := NatToString(-i);
    assert IntToString(i) == "-" + s;
  }

  /** Which kind of event a constructor is, numbered in declaration order. */
  function Kind(e: Event): nat {
    match e
    case NoEvent => 0
    case UnableToAct(_) => 1
    case UnableToActEmpty => 2
    case NewCustomer(_) => 3
    case InvalidCustomer(_) => 4
    case AlreadyAtBase => 5
    case AlreadyReturning => 6
    case UnableToRecall(_) => 7
    case RouteNotFound => 8
  }

  /** Reads the kind of event back from its text, by the first character and,
      where several texts share it, one more. */
  function KindOfText(t: string): nat {
    if |t| == 0 then 0
    else if t[0] == 'n' then 0
    else if t[0] == 'N' then 3
    else if t[0] == 'I' then 4
    else if t[0] == 'F' then 8
    else if t[0] == 'A' then (if |t| > 8 && t[8] == 'a' then 5 else 6)
    else if |t| > 10 && t[10] == 'r' then 7
    else if t == "Unable to act - empty" then 2
    else 1
  }

  /** The text of an event determines its kind. */
  lemma KindOfEventText(e: Event)
    ensures KindOfText(EventText(e)) == Kind(e)
  {
    var t := EventText(e);
    match e
    case UnableToAct(s) =>
      assert t[10] == 'a';
      assert t[16..] == StateName(s);
    case UnableToRecall(s) =>
      assert t[10] == 'r';
    case NewCustomer(i) =>
      assert t[0] == 'N';
    case InvalidCustomer(i) =>
      assert t[0] == 'I';
    case _ =>
  }

  /** The operator can tell every event from its text: two events reported
      with the same text are the same event. */
  lemma EventTextInjective(a: Event, b: Event)
    requires EventText(a) == EventText(b)
    ensures a == b
  {
    KindOfEventText(a);
    KindOfEventText(b);
    var t := EventText(a);
    match a
    case NewCustomer(i) =>
      assert t[14..] == IntToString(i);
      assert EventText(b)[14..] == IntToString(b.index);
      IntToStringInjective(i, b.index);
    case InvalidCustomer(i) =>
      assert t[18..] == IntToString(i);
      assert EventText(b)[18..] == IntToString(b.index);
      IntToStringInjective(i, b.index);
    case UnableToAct(s) =>
      assert t[16..] == StateName(s);
      assert EventText(b)[16..] == StateName(b.busy);
    case UnableToRecall(s) =>
      assert t[19..] == StateName(s);
      assert EventText(b)[19..] == StateName(b.busy);
    case _ =>
  }
}

=== FILE: findings.dfy ===
/**
  Three places where the program as written does not do what it evidently
  means to do, each modelled as written next to the intended behaviour.

  1. The distance (app.js:99) takes the cosine of the whole longitude term
     instead of multiplying the two latitude cosines into it. Equal points
     come out half the earth's circumference apart, nearby points at
     different latitudes NaN apart, so no arrival (app.js:106-109) is ever
     detected and no drive ever ends. With a distance that is zero between
     equal points, a drive ends on time (`Invariants.DriveEndsOnTime`).
  2. The loading case (app.js:339) compares against `loadingTime`, but the
     constant is declared `loadingTIme` (app.js:40). Reaching that case
     throws a ReferenceError inside the timer callback that runs every tick
     (app.js:532, 415). Nothing catches it, so the process ends at the first
     tick in `Loading`. That state is entered only when a returning truck's
     arrival is detected, which the distance as written prevents, so the
     error is latent until the distance is corrected.
  3. The customer check (app.js:196) only compares the payload with the
     bounds, so a fractional payload such as 1.5 passes. `customer[1.5]` is
     undefined, so reading its latitude (app.js:216) throws a TypeError after
     the event text has been set (app.js:214), and the command is never
     acknowledged (app.js:230).
 */
module Findings {
  import opened TruckTypes
  import opened Simulation
  import Commands
  import opened Invariants

  /** The distance of app.js:95-104 as written never reports two points
      within ten meters of each other: the outer cosine of app.js:99 wraps
      the whole longitude term, so equal points are π times the earth's
      radius apart, and nearby points at different latitudes give a square
      root of a negative number, NaN, which compares false. */
  ghost predicate NeverNearAsWritten(dist: (Point, Point) -> real) {
    forall p: Point, q: Point :: !(dist(p, q) < ArrivalRadius)
  }

  /** The task states before any drive has ended. */
  predicate Undelivered(s: TaskState) {
    s == Ready || s == Enroute || s == Returning
  }

  /** The program asks the routing service only for a drive to a customer
      (app.js:220) or back to base (app.js:243). */
  predicate RequestedAnswer(a: Action) {
    a.Answer? ==> a.target == Enroute || a.target == Returning
  }

  /** As written, a tick never ends a drive: the truck never arrives, so a
      truck that is ready, on its way to a customer or on its way back keeps
      its state. */
  lemma DriveNeverEndsAsWritten(t: Truck, interval: real, rolls: Rolls, dist: (Point, Point) -> real)
    requires Drivable(t)
    requires NeverNearAsWritten(dist)
    ensures var r := Tick(t, interval, rolls, dist);
            && !Arrived(r.truck, dist)
            && (Undelivered(t.state) ==> r.truck.state == t.state && r.planning.None?)
  {
  }

  /** As written, no interleaving of ticks, commands and the routing
      answers the program asks for ever takes the truck into `Delivering`,
      `Loading` or `Dumping`. */
  lemma {:induction false} NothingArrivesAsWritten(t: Truck, actions: seq<Action>, dist: (Point, Point) -> real)
    requires Inv(t)
    requires Undelivered(t.state)
    requires forall i :: 0 <= i < |actions| ==> Admissible(actions[i]) && RequestedAnswer(actions[i])
    requires NeverNearAsWritten(dist)
    ensures Undelivered(Run(t, actions, dist).state)
    decreases |actions|
  {
    if |actions| > 0 {
      var a := actions[0];
      var next := Apply(t, a, dist);
      if a.TickBy? {
        DriveNeverEndsAsWritten(t, a.interval, a.rolls, dist);
      }
      assert Undelivered(next.state);
      NothingArrivesAsWritten(next, actions[1..], dist);
    }
  }

  /** Hence the ReferenceError of the loading case is latent as written:
      from start-up, whatever happens, the next tick never ends the
      process. */
  lemma LoadingErrorLatentAsWritten(actions: seq<Action>, interval: real, rolls: Rolls, dist: (Point, Point) -> real)
    requires forall i :: 0 <= i < |actions| ==> Admissible(actions[i]) && RequestedAnswer(actions[i])
    requires NeverNearAsWritten(dist)
    ensures var r := Run(Initial, actions, dist);
            && r.state != Delivering && r.state != Loading && r.state != Dumping
            && TickAsWritten(r, interval, rolls, dist).Some?
  {
    InitialSatisfiesInv();
    NothingArrivesAsWritten(Initial, actions, dist);
  }

  /** The tick as written. `None` is the process ending on the uncaught
      ReferenceError, which happens exactly in `Loading`; every other state
      takes the intended tick. */
  function TickAsWritten(t: Truck, interval: real, rolls: Rolls, dist: (Point, Point) -> real): (r: Option<Step>)
    requires Drivable(t)
    ensures r.None? <==> t.state == Loading
    ensures r.Some? ==> r.value == Tick(t, interval, rolls, dist)
  {
    if t.state == Loading then None
    else Some(Tick(t, interval, rolls, dist))
  }

  /** Ticks as written, one per draw, at a fixed interval, with no routing
      answer in between. `None` once a tick has ended the process. While the
      process survives, it agrees with the intended ticks, and it survives
      only if it never ticked in `Loading`. */
  function TicksAsWritten(t: Truck, interval: real, draws: seq<Rolls>, dist: (Point, Point) -> real): (r: Option<Truck>)
    requires Drivable(t)
    ensures r.Some? ==> r.value == Ticks(t, interval, draws, dist)
    ensures r.Some? ==> forall k :: 0 <= k < |draws| ==> Ticks(t, interval, draws[..k], dist).state != Loading
    decreases |draws|
  {
    if |draws| == 0 then Some(t)
    else
      match TickAsWritten(t, interval, draws[0], dist)
      case None => None
      case Some(s) =>
        TicksPeel(t, interval, draws, dist);
        TicksAsWritten(s.truck, interval, draws[1..], dist)
  }

  /** The ticks over a non-empty prefix of the draws are the first tick
      followed by the ticks over the rest of that prefix. */
  lemma TicksPeel(t: Truck, interval: real, draws: seq<Rolls>, dist: (Point, Point) -> real)
    requires Drivable(t)
    requires |draws| > 0
    ensures forall k :: 0 < k <= |draws| ==>
              Ticks(t, interval, draws[..k], dist)
              == Ticks(Tick(t, interval, draws[0], dist).truck, interval, draws[1..][..k - 1], dist)
  {
    forall k | 0 < k <= |draws|
      ensures Ticks(t, interval, draws[..k], dist)
              == Ticks(Tick(t, interval, draws[0], dist).truck, interval, draws[1..][..k - 1], dist)
    {
      assert draws[..k][0] == draws[0];
      assert draws[..k][1..] == draws[1..][..k - 1];
    }
  }

  /** As written, through any run of ticks, a truck that is not full is
      never full again while the process survives: refilling happens only when loading completes,
      and the first tick in `Loading` ends the process. */
  lemma {:induction false} NeverRefilledAsWritten(t: Truck, interval: real, draws: seq<Rolls>, dist: (Point, Point) -> real)
    requires Drivable(t)
    requires t.contents != Full
    ensures var r := TicksAsWritten(t, interval, draws, dist);
            r.Some? ==> r.value.contents != Full
    decreases |draws|
  {
    if |draws| > 0 && t.state != Loading {
      var next := Tick(t, interval, draws[0], dist).truck;
      MeltingIsOneWay(t, interval, draws[0], dist);
      NeverRefilledAsWritten(next, interval, draws[1..], dist);
    }
  }

  /** The end of a delivery round trip as written, for any distance: an
      empty truck driving back to base survives the tick, switches to
      `Loading` exactly when it arrives, and then the next tick, whatever its
      draws, ends the process. */
  lemma ReturnedEmptyHaltsNextTick(t: Truck, interval: real, rolls: Rolls, next: Rolls, dist: (Point, Point) -> real)
    requires Drivable(t)
    requires t.state == Returning && t.contents == Empty
    ensures var s := TickAsWritten(t, interval, rolls, dist);
            && s.Some?
            && (s.value.truck.state == Loading <==> Arrived(s.value.truck, dist))
            && (s.value.truck.state == Loading ==> TickAsWritten(s.value.truck, interval, next, dist).None?)
  {
  }

  /** The discrepancy on a concrete input: a loading truck whose clock
      reaches 800 seconds ends the process as written, but is ready with the
      intended threshold. */
  lemma LoadingThresholdDiscrepancy(dist: (Point, Point) -> real)
    ensures var t := Initial.(state := Loading, contents := Empty, timeOnTask := 740.0);
            && TickAsWritten(t, DefaultInterval, Rolls(0.5, 0.5), dist).None?
            && Tick(t, DefaultInterval, Rolls(0.5, 0.5), dist).truck.state == Ready
  {
  }

  /** With the intended threshold, loading completes once the clock
      reaches 800 seconds: the truck is ready, full, its fan repaired and on,
      and the cargo at -2 degrees, whatever the draws were. */
  lemma LoadingCompletes(t: Truck, interval: real, rolls: Rolls, dist: (Point, Point) -> real)
    requires t.state == Loading
    requires t.timeOnTask + interval >= LoadingTime
    ensures var r := Tick(t, interval, rolls, dist).truck;
            && r.state == Ready
            && r.contents == Full
            && r.fan == On
            && r.temp == RepairedTemp
            && r.timeOnTask == 0.0
  {
  }

  /** The customer check as written, on the numeric payload. */
  predicate AcceptsCustomerAsWritten(num: real) {
    0.0 <= num < |Customers| as real
  }

  /** What `customer[num]` gives as written: the check rejects the payload,
      or it names a listed customer, or it is undefined. */
  datatype Lookup = Rejected | Found(p: Point) | Undefined

  /** The customer lookup as written (app.js:196, 216): only whole payloads
      in range find a customer; fractional ones in range find nothing. */
  function CustomerAsWritten(num: real): (r: Lookup)
    ensures r.Rejected? <==> !AcceptsCustomerAsWritten(num)
    ensures r.Found? <==> AcceptsCustomerAsWritten(num) && num.Floor as real == num
    ensures r.Found? ==> r.p in Customers
  {
    if !AcceptsCustomerAsWritten(num) then Rejected
    else if num.Floor as real == num then Found(Customers[num.Floor])
    else Undefined
  }

  /** The dispatch handler as written throws: it gets past the state and
      cargo checks to the lookup of an undefined customer. */
  predicate DispatchThrowsAsWritten(t: Truck, num: real) {
    && CustomerAsWritten(num).Undefined?
    && Commands.Dispatchable(t.state)
    && t.contents != Empty
  }

  /** A payload of 1.5 passes the check as written, and a truck that could
      take a dispatch then throws instead of planning a route. */
  lemma FractionalCustomerThrows(t: Truck)
    requires Commands.Dispatchable(t.state) && t.contents != Empty
    ensures AcceptsCustomerAsWritten(1.5)
    ensures DispatchThrowsAsWritten(t, 1.5)
  {
  }

  /** On whole payloads the lookup as written agrees with the model of the
      command: it finds a customer exactly when the index is in range, the
      one the dispatch heads for. */
  lemma WholePayloadAgrees(t: Truck, n: int)
    ensures CustomerAsWritten(n as real).Found? <==> 0 <= n < |Customers|
    ensures !DispatchThrowsAsWritten(t, n as real)
    ensures Commands.GoToCustomer(t, n).planning.Some? ==>
              CustomerAsWritten(n as real) == Found(Commands.GoToCustomer(t, n).truck.destination)
  {
  }

  /** With the payload read as an integer, an accepted dispatch always
      heads for one of the listed customers. */
  lemma AcceptedDispatchHeadsForCustomer(t: Truck, num: int)
    requires Commands.GoToCustomer(t, num).planning.Some?
    ensures 0 <= num < |Customers|
    ensures Commands.GoToCustomer(t, num).truck.destination in Customers
  {
  }
}

=== FILE: invariants.dfy ===
/**
  The invariants the simulation keeps across any interleaving of ticks,
  commands and routing answers: the melting accumulator is never negative,
  and while the truck drives its route cursor is valid, sits at the prefix
  sum of the segments it has finished, and has not run ahead of the task
  clock, and the route ends at the truck's destination.
 */
module Invariants {
  import opened TruckTypes
  import opened Position
  import opened Routing
  import opened Simulation
  import opened Commands

  /** A route being driven with task clock `clock` towards `destination`:
      the cursor is valid, sits at the prefix sum of the finished segments
      and is not ahead of the clock, and the path ends at the destination. */
  predicate RouteInv(route: Route, clock: real, destination: Point) {
    && CursorValid(route)
    && route.completed == Sum(route.durations[..route.section])
    && route.completed <= clock
    && route.path[|route.path| - 1] == destination
  }

  predicate Inv(t: Truck) {
    && t.tooWarm >= 0.0
    && (Driving(t.state) ==> RouteInv(t.route, t.timeOnTask, t.destination))
  }

  /** Everything that can happen to the truck: a tick, one of the two remote
      commands, or the routing service's answer to an earlier request. */
  datatype Action =
    | TickBy(interval: real, rolls: Rolls)
    | Dispatch(customer: int)
    | RecallTruck
    | Answer(target: TaskState, result: OracleResult)

  /** Ticks do not run backwards and answers carry a usable speed. */
  predicate Admissible(a: Action) {
    match a
    case TickBy(interval, _) => interval >= 0.0
    case Answer(_, result) => Usable(result)
    case _ => true
  }

  lemma InitialSatisfiesInv()
    ensures Inv(Initial)
  {
  }

  lemma TickPreservesInv(t: Truck, interval: real, rolls: Rolls, dist: (Point, Point) -> real)
    requires Inv(t)
    requires interval >= 0.0
    ensures Inv(Tick(t, interval, rolls, dist).truck)
  {
    var r := Tick(t, interval, rolls, dist).truck;
    if Driving(r.state) {
      assert r.state == t.state;
      var c := Clocked(t, interval, rolls);
      var p := UpdatePosition(c.route, c.timeOnTask);
      assert r.route == p.route;
    }
  }

  lemma CommandsPreserveInv(t: Truck, num: int)
    requires Inv(t)
    ensures Inv(GoToCustomer(t, num).truck)
    ensures Inv(Recall(t).truck)
  {
  }

  lemma AnswerPreservesInv(t: Truck, target: TaskState, result: OracleResult, dist: (Point, Point) -> real)
    requires Inv(t)
    requires Usable(result)
    ensures Inv(CompleteRoute(t, target, result, dist))
  {
    var r := CompleteRoute(t, target, result, dist);
    if result.Routed? {
      assert r.route.durations[..0] == [];
    }
  }

  /** The truck after one action. */
  function Apply(t: Truck, a: Action, dist: (Point, Point) -> real): (r: Truck)
    requires Inv(t)
    requires Admissible(a)
    ensures Inv(r)
  {
    match a
    case TickBy(interval, rolls) =>
      TickPreservesInv(t, interval, rolls, dist);
      Tick(t, interval, rolls, dist).truck
    case Dispatch(num) =>
      CommandsPreserveInv(t, num);
      GoToCustomer(t, num).truck
    case RecallTruck =>
      CommandsPreserveInv(t, 0);
      Recall(t).truck
    case Answer(target, result) =>
      AnswerPreservesInv(t, target, result, dist);
      CompleteRoute(t, target, result, dist)
  }

  /** The truck after a sequence of actions. */
  function Run(t: Truck, actions: seq<Action>, dist: (Point, Point) -> real): (r: Truck)
    requires Inv(t)
    requires forall i :: 0 <= i < |actions| ==> Admissible(actions[i])
    ensures Inv(r)
    ensures r.tooWarm >= 0.0
    decreases |actions|
  {
    if |actions| == 0 then t
    else Run(Apply(t, actions[0], dist), actions[1..], dist)
  }

  /** From start-up, whatever happens, the accumulator stays non-negative,
      and a driving truck's cursor stays within its route, which ends at the
      truck's destination. */
  lemma ReachableStatesAreSound(actions: seq<Action>, dist: (Point, Point) -> real)
    requires forall i :: 0 <= i < |actions| ==> Admissible(actions[i])
    ensures var r := Run(Initial, actions, dist);
            && r.tooWarm >= 0.0
            && (Driving(r.state) ==>
                  && r.route.section <= |r.route.durations| - 1
                  && r.route.path[|r.route.path| - 1] == r.destination)
  {
    InitialSatisfiesInv();
  }

  /** While the truck drives a route of positive segment times, every tick
      leaves it on the straight segment its cursor points at. */
  lemma DrivingTruckStaysOnRoute(t: Truck, interval: real, rolls: Rolls, dist: (Point, Point) -> real)
    requires Inv(t)
    requires interval >= 0.0
    requires Driving(t.state)
    requires PositiveDurations(t.route.durations)
    ensures var r := Tick(t, interval, rolls, dist).truck;
            && r.route.path == t.route.path
            && r.route.section < |r.route.path| - 1
            && OnSegment(r.current, r.route.path[r.route.section], r.route.path[r.route.section + 1])
  {
    var c := Clocked(t, interval, rolls);
    PositionOnCurrentSegment(c.route, c.timeOnTask);
  }

  /** A drive ends on time: when the task clock reaches the route's total
      time, the truck stands on the destination, so under any distance that
      is zero between equal points it has arrived and the tick finishes the
      drive. */
  lemma DriveEndsOnTime(t: Truck, interval: real, rolls: Rolls, dist: (Point, Point) -> real)
    requires Inv(t)
    requires Driving(t.state)
    requires PositiveDurations(t.route.durations)
    requires Sum(t.route.durations) <= t.timeOnTask + interval
    requires dist(t.destination, t.destination) == 0.0
    ensures var r := Tick(t, interval, rolls, dist).truck;
            && r.current == t.destination
            && (t.state == Enroute ==> r.state == Delivering)
            && (t.state == Returning ==>
                  var contents := Thermal(t, interval, rolls).contents;
                  && (contents == Empty ==> r.state == Loading)
                  && (contents == Full ==> r.state == Ready)
                  && (contents == Melting ==> r.state == Dumping))
  {
    var c := Clocked(t, interval, rolls);
    OvershootPinsToDestination(c.route, c.timeOnTask);
    var m := Drive(c);
    assert m.current == t.destination;
    assert Arrived(m, dist);
  }
}

=== FILE: position.dfy ===
/**
  The position tracker of app.js:111-125: a cursor over the route's segments
  that skips the segments already driven and then interpolates inside the
  current one.
 */
module Position {
  import opened TruckTypes

  datatype Cursor = Cursor(section: nat, completed: real)

  /** The result of one position update: the route with its advanced cursor
      and the truck's new position. */
  datatype Tracked = Tracked(route: Route, position: Point)

  /** The skip loop of app.js:112-116: move to the next segment while the
      current one is finished before `elapsed` and it is not the last. */
  function Advance(durations: seq<real>, section: nat, completed: real, elapsed: real): (c: Cursor)
    requires section < |durations|
    ensures && section <= c.section < |durations|
            && (completed == Sum(durations[..section]) ==>
                  && c.completed == Sum(durations[..c.section])
                  && forall k :: section < k <= c.section ==> Sum(durations[..k]) < elapsed)
            && (c.section == |durations| - 1 || elapsed <= c.completed + durations[c.section])
    ensures completed <= elapsed ==> c.completed <= elapsed
    decreases |durations| - section
  {
    if completed + durations[section] < elapsed && section < |durations| - 1 then
      SumPrefixStep(durations, section);
      Advance(durations, section + 1, completed + durations[section], elapsed)
    else
      Cursor(section, completed)
  }

  /** The clamped share of the current segment already driven (app.js:119).
      JavaScript's `x / 0` is +Infinity for positive `x`, which the clamp
      turns into 1; that is the value used for a zero-length segment. */
  function Fraction(elapsed: real, duration: real): (f: real)
    ensures f <= 1.0
    ensures duration > 0.0 && elapsed >= 0.0 ==> 0.0 <= f
    ensures duration > 0.0 && elapsed >= duration ==> f == 1.0
    ensures duration > 0.0 && elapsed < duration ==> f * duration == elapsed
  {
    if duration == 0.0 then 1.0 else Min(1.0, elapsed / duration)
  }

  /** One position update (app.js:111-125). */
  function UpdatePosition(route: Route, elapsed: real): (r: Tracked)
    requires CursorValid(route)
    ensures r.route.path == route.path && r.route.durations == route.durations
    ensures && CursorValid(r.route)
            && route.section <= r.route.section
            && (route.completed == Sum(route.durations[..route.section]) ==>
                  r.route.completed == Sum(r.route.durations[..r.route.section]))
    ensures route.completed <= elapsed ==> r.route.completed <= elapsed
    ensures var s := r.route.section;
            var d := route.durations[s];
            var a := route.path[s];
            var b := route.path[s + 1];
            var x := Min(d, elapsed - r.route.completed);
            d > 0.0 ==>
              && (r.position.lat - a.lat) * d == x * (b.lat - a.lat)
              && (r.position.lon - a.lon) * d == x * (b.lon - a.lon)
  {
    var c := Advance(route.durations, route.section, route.completed, elapsed);
    var a := route.path[c.section];
    var b := route.path[c.section + 1];
    var f := Fraction(elapsed - c.completed, route.durations[c.section]);
    LerpShare(a, b, route.durations[c.section], elapsed - c.completed);
    Tracked(route.(section := c.section, completed := c.completed), Lerp(a, b, f))
  }

  /** Moving a share `f` along a segment of time `d`, with `f * d == x`,
      offsets a coordinate by `u` (the segment's extent) scaled the same. */
  lemma ShareOfOffset(f: real, d: real, x: real, u: real)
    requires f * d == x
    ensures (f * u) * d == x * u
  {
    assert (f * u) * d == (f * d) * u;
  }

  /** The interpolated point's offset from the segment start, times the
      segment time, is the clamped time driven times the segment. */
  lemma LerpShare(a: Point, b: Point, d: real, x: real)
    ensures var p := Lerp(a, b, Fraction(x, d));
            d > 0.0 ==>
              && (p.lat - a.lat) * d == Min(d, x) * (b.lat - a.lat)
              && (p.lon - a.lon) * d == Min(d, x) * (b.lon - a.lon)
  {
    if d > 0.0 && x < d {
      var f := Fraction(x, d);
      ShareOfOffset(f, d, x, b.lat - a.lat);
      ShareOfOffset(f, d, x, b.lon - a.lon);
    }
  }

  /** With positive durations and a cursor that has not run ahead of the
      clock, the fraction lies in [0,1] and the new position lies on the
      segment the cursor ends on. */
  lemma PositionOnCurrentSegment(route: Route, elapsed: real)
    requires CursorValid(route)
    requires PositiveDurations(route.durations)
    requires route.completed <= elapsed
    ensures var r := UpdatePosition(route, elapsed);
            var f := Fraction(elapsed - r.route.completed, route.durations[r.route.section]);
            && 0.0 <= f <= 1.0
            && OnSegment(r.position, route.path[r.route.section], route.path[r.route.section + 1])
    ensures var r := UpdatePosition(route, elapsed);
            var s := r.route.section;
            var d := route.durations[s];
            var x := Min(d, elapsed - r.route.completed);
            && 0.0 <= x <= d
            && r.position == Lerp(route.path[s], route.path[s + 1], x / d)
  {
    var r := UpdatePosition(route, elapsed);
    var s := r.route.section;
    var f := Fraction(elapsed - r.route.completed, route.durations[s]);
    assert route.durations[s] > 0.0;
    assert elapsed - r.route.completed >= 0.0;
    assert (elapsed - r.route.completed) / route.durations[s] >= 0.0;
    assert r.position == Lerp(route.path[s], route.path[s + 1], f);
    ClampedShare(elapsed - r.route.completed, route.durations[s]);
  }

  /** On a segment of positive time, the clamped fraction is the clamped
      time driven over the segment time. */
  lemma ClampedShare(x: real, d: real)
    requires d > 0.0
    ensures Fraction(x, d) == Min(d, x) / d
  {
    if x >= d {
      QuotientAtLeastOne(x, d);
    }
  }

  lemma QuotientAtLeastOne(x: real, d: real)
    requires x >= d > 0.0
    ensures x / d >= 1.0
  {
  }

  /** A clock at or past the total route time drives the cursor to the last
      segment and pins the position to the last waypoint. */
  lemma OvershootPinsToDestination(route: Route, elapsed: real)
    requires CursorValid(route)
    requires PositiveDurations(route.durations)
    requires route.completed == Sum(route.durations[..route.section])
    requires Sum(route.durations) <= elapsed
    ensures var r := UpdatePosition(route, elapsed);
            && r.route.section == |route.durations| - 1
            && r.position == route.path[|route.path| - 1]
  {
    var d := route.durations;
    var c := Advance(d, route.section, route.completed, elapsed);
    var last := |d| - 1;
    AdvanceToLast(d, route.section, route.completed, elapsed);
    var x := elapsed - c.completed;
    QuotientAtLeastOne(x, d[last]);
    assert Fraction(x, d[last]) == 1.0;
    LerpAtEnd(route.path[last], route.path[last + 1]);
  }

  /** The cursor half of the overshoot: the skip loop reaches the last
      segment, and that segment is finished by the clock. */
  lemma AdvanceToLast(d: seq<real>, section: nat, completed: real, elapsed: real)
    requires section < |d|
    requires PositiveDurations(d)
    requires completed == Sum(d[..section])
    requires Sum(d) <= elapsed
    ensures var c := Advance(d, section, completed, elapsed);
            && c.section == |d| - 1
            && c.completed + d[|d| - 1] <= elapsed
  {
    var c := Advance(d, section, completed, elapsed);
    var last := |d| - 1;
    if c.section < last {
      PrefixBelowTotal(d, c.section + 1);
      SumPrefixStep(d, c.section);
      assert false;
    }
    SumPrefixStep(d, last);
    assert d[..last + 1] == d;
  }

  lemma LerpAtEnd(a: Point, b: Point)
    ensures Lerp(a, b, 1.0) == b
  {
  }

  /** Two segments of 100 seconds over (0,0) (0,1) (0,2): after 150 seconds
      the truck is halfway along the second segment. */
  lemma HalfwayAlongSecondSegment()
    ensures var route := Route([Point(0.0, 0.0), Point(0.0, 1.0), Point(0.0, 2.0)], [100.0, 100.0], 0, 0.0);
            var r := UpdatePosition(route, 150.0);
            && r.route.section == 1
            && r.route.completed == 100.0
            && r.position == Point(0.0, 1.5)
  {
    var route := Route([Point(0.0, 0.0), Point(0.0, 1.0), Point(0.0, 2.0)], [100.0, 100.0], 0, 0.0);
    assert route.durations[..0] == [];
    var c := Advance(route.durations, 0, 0.0, 150.0);
    assert c == Cursor(1, 100.0);
  }
}

=== FILE: routing.dfy ===
/**
  Route planning (app.js:128-189, 238-244). Planning is split the way the
  program splits it: `BeginRoute` is the synchronous part that parks the
  truck in `Ready` and issues the request, `CompleteRoute` is the callback
  that runs once the routing service has answered.
 */
module Routing {
  import opened TruckTypes

  /** The routing service's answer: the interior waypoints with the route's
      total length in meters and travel time in seconds, or a failure
      (error or timeout). */
  datatype OracleResult = Routed(points: seq<Point>, meters: real, seconds: real) | NoRoute

  /** The answer carries a usable average speed. */
  predicate Usable(result: OracleResult) {
    result.Routed? ==> result.meters > 0.0 && result.seconds > 0.0
  }

  /** Distance of every leg of a path. */
  function Legs(path: seq<Point>, dist: (Point, Point) -> real): (r: seq<real>)
    ensures |r| == if |path| == 0 then 0 else |path| - 1
    ensures forall i :: 0 <= i < |r| ==> r[i] == dist(path[i], path[i + 1])
  {
    if |path| < 2 then []
    else Legs(path[..|path| - 1], dist) + [dist(path[|path| - 2], path[|path| - 1])]
  }

  /** Driving for `time` at `speed` covers `meters`. */
  predicate ScaledBy(time: real, speed: real, meters: real) {
    time * speed == meters
  }

  /** Time for every leg of a path at one average speed (app.js:169-177):
      each duration, driven at `speed`, covers exactly that leg. */
  function SegmentTimes(path: seq<Point>, speed: real, dist: (Point, Point) -> real): (r: seq<real>)
    requires speed > 0.0
    ensures |r| == if |path| == 0 then 0 else |path| - 1
    ensures forall i :: 0 <= i < |r| ==> ScaledBy(r[i], speed, dist(path[i], path[i + 1]))
  {
    if |path| < 2 then []
    else SegmentTimes(path[..|path| - 1], speed, dist) + [dist(path[|path| - 2], path[|path| - 1]) / speed]
  }

  /** The synchronous half of GetRoute (app.js:130-136): the truck waits in
      `Ready`, so no tick can advance a route that does not exist yet. */
  function BeginRoute(t: Truck, target: TaskState): (r: Step)
    ensures r.truck.state == Ready
    ensures r.truck == t.(state := Ready)
    ensures r.planning == Some(Request(t.current, t.destination, target))
  {
    Step(t.(state := Ready), Some(Request(t.current, t.destination, target)))
  }

  /** The callback half of GetRoute (app.js:137-188). On success the path
      runs from where the truck is now, through the service's waypoints, to
      the destination; every leg gets its share of time at the route's
      average speed; the cursor and the task clock restart; the truck takes
      the requested state. On failure only the event text changes. */
  function CompleteRoute(t: Truck, target: TaskState, result: OracleResult, dist: (Point, Point) -> real): (r: Truck)
    requires Usable(result)
    ensures result.Routed? ==>
              && r.route.path == [t.current] + result.points + [t.destination]
              && |r.route.durations| == |r.route.path| - 1
              && (forall i :: 0 <= i < |r.route.durations| ==>
                    ScaledBy(r.route.durations[i], result.meters / result.seconds, dist(r.route.path[i], r.route.path[i + 1])))
              && r.route.section == 0 && r.route.completed == 0.0
              && r == t.(route := r.route, timeOnTask := 0.0, state := target)
    ensures result.NoRoute? ==> r == t.(event := RouteNotFound)
  {
    match result
    case Routed(points, meters, seconds) =>
      var path := [t.current] + points + [t.destination];
      var speed := meters / seconds;
      t.(route := Route(path, SegmentTimes(path, speed, dist), 0, 0.0),
         timeOnTask := 0.0,
         state := target)
    case NoRoute =>
      t.(event := RouteNotFound)
  }

  /** ReturnToBase (app.js:238-244): head for base and plan the route home. */
  function ReturnToBase(t: Truck): (r: Step)
    ensures r.truck == t.(destination := Base, state := Ready)
    ensures r.planning == Some(Request(t.current, Base, Returning))
  {
    BeginRoute(t.(destination := Base), Returning)
  }

  /** Scaling every element scales the sum. */
  lemma {:induction false} ScaledSum(times: seq<real>, legs: seq<real>, speed: real)
    requires |times| == |legs|
    requires forall i :: 0 <= i < |times| ==> ScaledBy(times[i], speed, legs[i])
    ensures ScaledBy(Sum(times), speed, Sum(legs))
    decreases |times|
  {
    if |times| > 0 {
      var n := |times| - 1;
      ScaledSum(times[..n], legs[..n], speed);
      ScaleStep(Sum(times[..n]), Sum(legs[..n]), times[n], legs[n], speed);
    }
  }

  lemma ScaleStep(a: real, b: real, x: real, y: real, speed: real)
    requires ScaledBy(a, speed, b)
    requires ScaledBy(x, speed, y)
    ensures ScaledBy(a + x, speed, b + y)
  {
  }

  /** The durations add up to the route's length divided by its speed. */
  lemma SegmentTimesTotal(path: seq<Point>, speed: real, dist: (Point, Point) -> real)
    requires speed > 0.0
    ensures ScaledBy(Sum(SegmentTimes(path, speed, dist)), speed, Sum(Legs(path, dist)))
  {
    var times := SegmentTimes(path, speed, dist);
    var legs := Legs(path, dist);
    forall i | 0 <= i < |times|
      ensures ScaledBy(times[i], speed, legs[i])
    {
      assert ScaledBy(times[i], speed, dist(path[i], path[i + 1]));
    }
    ScaledSum(times, legs, speed);
  }

  /** When the service's length agrees with the summed leg distances, the
      planned route takes exactly the service's travel time. */
  lemma RouteTimeMatchesService(t: Truck, target: TaskState, result: OracleResult, dist: (Point, Point) -> real)
    requires result.Routed? && Usable(result)
    requires Sum(Legs([t.current] + result.points + [t.destination], dist)) == result.meters
    ensures Sum(CompleteRoute(t, target, result, dist).route.durations) == result.seconds
  {
    var path := [t.current] + result.points + [t.destination];
    var speed := result.meters / result.seconds;
    SegmentTimesTotal(path, speed, dist);
    var total := Sum(SegmentTimes(path, speed, dist));
    assert total * speed == result.meters;
    assert speed * result.seconds == result.meters;
  }

  /** Begin followed by a failed answer: the truck stays parked in `Ready`
      at the same place and reports the failure; no route is installed. */
  lemma FailedPlanningLeavesTruckReady(t: Truck, target: TaskState, dist: (Point, Point) -> real)
    ensures var r := CompleteRoute(BeginRoute(t, target).truck, target, NoRoute, dist);
            && r.state == Ready
            && r.event == RouteNotFound
            && r.route == t.route
            && r.current == t.current
  {
  }

  /** Begin followed by a successful answer: the truck is in the requested
      state with a fresh route from its position to its destination. */
  lemma SuccessfulPlanningStartsTarget(t: Truck, target: TaskState, result: OracleResult, dist: (Point, Point) -> real)
    requires result.Routed? && Usable(result)
    ensures var r := CompleteRoute(BeginRoute(t, target).truck, target, result, dist);
            && r.state == target
            && r.timeOnTask == 0.0
            && CursorValid(r.route)
            && r.route.path[0] == t.current
            && r.route.path[|r.route.path| - 1] == t.destination
  {
  }

  /** Recalling home and getting a route back, from any truck: the truck
      is returning from where it stood towards base, along a route whose
      cursor is at its start. */
  lemma ReturnHomeRouted(t: Truck, result: OracleResult, dist: (Point, Point) -> real)
    requires result.Routed? && Usable(result)
    ensures var s := ReturnToBase(t);
            var r := CompleteRoute(s.truck, s.planning.value.target, result, dist);
            && r.state == Returning
            && r.destination == Base
            && CursorValid(r.route) && r.route.section == 0 && r.route.completed == 0.0
            && r.route.path[0] == t.current
            && r.route.path[|r.route.path| - 1] == Base
            && r.contents == t.contents && r.event == t.event
  {
  }

  /** Recalling home when no route comes back: the truck is left parked in
      `Ready` with base as its destination, its old route, and the failure
      reported. */
  lemma ReturnHomeUnrouted(t: Truck, dist: (Point, Point) -> real)
    ensures var s := ReturnToBase(t);
            var r := CompleteRoute(s.truck, s.planning.value.target, NoRoute, dist);
            && r.state == Ready
            && r.destination == Base
            && r.route == t.route
            && r.event == RouteNotFound
  {
  }
}

=== FILE: simulation.dfy ===
/**
  The per-tick update of app.js:281-410: cooling fan, cargo temperature and
  the melting accumulator first, then the task clock, then the task state
  machine.
 */
module Simulation {
  import opened TruckTypes
  import opened Position
  import opened Routing

  /** The two values of `Math.random()` a tick may draw, each in [0,1):
      `failure` decides the random fan failure, `drift` the temperature
      change. */
  datatype Rolls = Rolls(failure: real, drift: real)

  predicate ValidRolls(r: Rolls) {
    0.0 <= r.failure < 1.0 && 0.0 <= r.drift < 1.0
  }

  /** dieRoll (app.js:277-279): a uniform draw scaled to [0,max). */
  function DieRoll(u: real, max: real): real {
    u * max
  }

  /** The truck has come within ten meters of its destination
      (app.js:106-109), for a given distance function. A truck standing on
      its destination has arrived under any distance that is zero between
      equal points, and one that has arrived is less than ten meters away. */
  function Arrived(t: Truck, dist: (Point, Point) -> real): (r: bool)
    ensures t.current == t.destination && dist(t.current, t.current) == 0.0 ==> r
    ensures r <==> dist(t.current, t.destination) < 10.0
  {
    dist(t.current, t.destination) < ArrivalRadius
  }

  /** Fan control while there is cargo (app.js:291-308): a working fan is
      switched by the temperature band and may then fail at random. Below
      five degrees under the optimum it goes off, above the optimum it goes
      on, in between it keeps its setting; a draw under 1% fails it, and a
      failed fan never recovers here. */
  function CargoFan(t: Truck, failure: real): (r: Fan)
    ensures t.fan == Failed ==> r == Failed
    ensures failure < 0.01 ==> r == Failed
    ensures t.fan != Failed && failure >= 0.01 ==>
              && (t.temp < t.optimal - 5.0 ==> r == Off)
              && (t.temp > t.optimal ==> r == On)
              && (t.optimal - 5.0 <= t.temp <= t.optimal ==> r == t.fan)
  {
    if t.fan == Failed then Failed
    else
      var f := if t.temp < t.optimal - 5.0 then Off
               else if t.temp > t.optimal then On
               else t.fan;
      if DieRoll(failure, 100.0) < 1.0 then Failed else f
  }

  /** The thermal block (app.js:282-333). */
  function Thermal(t: Truck, interval: real, rolls: Rolls): (r: Truck)
    ensures r == t.(fan := r.fan, temp := r.temp, tooWarm := r.tooWarm, contents := r.contents)
    ensures t.fan == Failed ==> r.fan == Failed
    ensures r.fan == Failed && t.fan != Failed ==> t.contents != Empty && rolls.failure < 0.01
    ensures t.contents != Empty && rolls.failure < 0.01 ==> r.fan == Failed
    ensures t.contents == Empty ==> r.contents == Empty && r.fan != On && r.tooWarm == t.tooWarm
    ensures t.contents != Empty ==> r.contents != Empty
    ensures r.contents == Full ==> t.contents == Full
    ensures t.tooWarm >= 0.0 && interval >= 0.0 ==> r.tooWarm >= 0.0
    ensures ValidRolls(rolls) ==> -3.0 <= r.temp - t.temp < 3.1
    ensures t.contents != Empty && t.fan != Failed && rolls.failure >= 0.01 ==>
              && (t.temp < t.optimal - 5.0 ==> r.fan == Off)
              && (t.temp > t.optimal ==> r.fan == On)
              && (t.optimal - 5.0 <= t.temp <= t.optimal ==> r.fan == t.fan)
    ensures ValidRolls(rolls) ==>
              if r.fan == On then -3.0 <= r.temp - t.temp < 2.0
              else -2.9 <= r.temp - t.temp < 3.1
    ensures t.contents == Full ==>
              (r.contents == Melting <==> r.temp >= TooWarmThreshold && r.tooWarm >= TooWarmTooLong)
  {
    if t.contents == Empty then
      t.(fan := if t.fan == On then Off else t.fan,
         temp := t.temp + (-2.9 + DieRoll(rolls.drift, 6.0)))
    else
      var fan := CargoFan(t, rolls.failure);
      var temp := if fan == On then t.temp + (-3.0 + DieRoll(rolls.drift, 5.0))
                  else t.temp + (-2.9 + DieRoll(rolls.drift, 6.0));
      if temp >= TooWarmThreshold then
        var warm := t.tooWarm + interval;
        t.(fan := fan, temp := temp, tooWarm := warm,
           contents := if warm >= TooWarmTooLong then Melting else t.contents)
      else
        t.(fan := fan, temp := temp, tooWarm := Max(0.0, t.tooWarm - interval))
  }

  /** The thermal block followed by the task clock (app.js:282-335): what a
      tick has done before it looks at the task state. */
  function Clocked(t: Truck, interval: real, rolls: Rolls): (r: Truck)
    ensures r.state == t.state && r.route == t.route && r.current == t.current
    ensures r.timeOnTask == t.timeOnTask + interval
  {
    var h := Thermal(t, interval, rolls);
    h.(timeOnTask := h.timeOnTask + interval)
  }

  /** Advance the truck along its route (app.js:367, 391). */
  function Drive(t: Truck): (r: Truck)
    requires CursorValid(t.route)
    ensures r == t.(route := r.route, current := r.current)
    ensures CursorValid(r.route)
  {
    var p := UpdatePosition(t.route, t.timeOnTask);
    t.(route := p.route, current := p.position)
  }

  /** The task picked on arrival at base (app.js:371-384). */
  function NextAtBase(c: Contents): TaskState {
    match c
    case Empty => Loading
    case Full => Ready
    case Melting => Dumping
  }

  /** The task-state changes a tick may make, written as a table
      independently of `Tick`: a tick never dispatches the truck, it only
      finishes tasks. */
  predicate TickEdge(from: TaskState, to: TaskState) {
    from == to ||
    match from
    case Ready => false
    case Enroute => to == Delivering
    case Delivering => to == Ready
    case Returning => to == Loading || to == Ready || to == Dumping
    case Loading => to == Ready
    case Dumping => to == Loading
  }

  /** One tick of the simulation (app.js:281-410), with the intended loading
      threshold of 800 seconds. */
  function Tick(t: Truck, interval: real, rolls: Rolls, dist: (Point, Point) -> real): (r: Step)
    requires Drivable(t)
    ensures Drivable(r.truck)
    ensures TickEdge(t.state, r.truck.state)
    ensures r.planning.Some? <==> t.state == Delivering && t.timeOnTask + interval >= DeliverTime
    ensures r.planning.Some? ==>
              && r.planning.value == Request(t.current, Base, Returning)
              && r.truck.state == Ready && r.truck.contents == Empty && r.truck.destination == Base
    ensures r.truck.state == t.state ==>
              r.truck.timeOnTask == (if t.state == Ready then 0.0 else t.timeOnTask + interval)
    ensures r.truck.state != t.state && r.planning.None? ==> r.truck.timeOnTask == 0.0
    ensures t.state == Loading ==> (r.truck.state != Loading <==> t.timeOnTask + interval >= LoadingTime)
    ensures t.state == Dumping ==> (r.truck.state != Dumping <==> t.timeOnTask + interval >= DumpingTime)
    ensures t.state == Delivering ==> (r.truck.state != Delivering <==> t.timeOnTask + interval >= DeliverTime)
    ensures !Driving(t.state) ==> r.truck.route == t.route && r.truck.current == t.current
    ensures r.truck.optimal == t.optimal && r.truck.event == t.event
    ensures r.truck.tooWarm == Thermal(t, interval, rolls).tooWarm
    ensures r.planning.None? ==> r.truck.destination == t.destination
    ensures r.planning.Some? ==> r.truck.timeOnTask == t.timeOnTask + interval
    ensures !(t.state == Loading && t.timeOnTask + interval >= LoadingTime) ==>
              r.truck.fan == Thermal(t, interval, rolls).fan && r.truck.temp == Thermal(t, interval, rolls).temp
    ensures r.truck.contents ==
              if t.state == Loading && t.timeOnTask + interval >= LoadingTime then Full
              else if || (t.state == Dumping && t.timeOnTask + interval >= DumpingTime)
                      || (t.state == Delivering && t.timeOnTask + interval >= DeliverTime) then Empty
              else Thermal(t, interval, rolls).contents
  {
    var c := Clocked(t, interval, rolls);
    match c.state
    case Loading =>
      if c.timeOnTask >= LoadingTime then
        Step(c.(state := Ready, contents := Full, timeOnTask := 0.0, fan := On, temp := RepairedTemp), None)
      else Step(c, None)
    case Ready =>
      Step(c.(timeOnTask := 0.0), None)
    case Delivering =>
      if c.timeOnTask >= DeliverTime then ReturnToBase(c.(contents := Empty))
      else Step(c, None)
    case Returning =>
      var m := Drive(c);
      if Arrived(m, dist) then Step(m.(state := NextAtBase(m.contents), timeOnTask := 0.0), None)
      else Step(m, None)
    case Enroute =>
      var m := Drive(c);
      if Arrived(m, dist) then Step(m.(state := Delivering, timeOnTask := 0.0), None)
      else Step(m, None)
    case Dumping =>
      if c.timeOnTask >= DumpingTime then
        Step(c.(state := Loading, contents := Empty, timeOnTask := 0.0), None)
      else Step(c, None)
  }

  /** The melting accumulator (app.js:319-332): with cargo aboard it grows
      by the interval while the new temperature is at least 2 degrees, and
      full cargo starts melting exactly when it reaches 60 seconds at such a
      temperature; otherwise it shrinks
      by the interval but never below zero. With no cargo it is untouched.
      It is never negative, and nothing after the thermal block changes it. */
  lemma AccumulatorRule(t: Truck, interval: real, rolls: Rolls, dist: (Point, Point) -> real)
    requires Drivable(t)
    requires t.tooWarm >= 0.0 && interval >= 0.0
    ensures var h := Thermal(t, interval, rolls);
            var r := Tick(t, interval, rolls, dist).truck;
            && r.tooWarm == h.tooWarm
            && r.tooWarm >= 0.0
            && (t.contents == Empty ==> r.tooWarm == t.tooWarm)
            && (t.contents != Empty && h.temp >= TooWarmThreshold ==>
                  r.tooWarm == t.tooWarm + interval
                  && (r.tooWarm >= TooWarmTooLong ==> h.contents == Melting))
            && (t.contents != Empty && h.temp < TooWarmThreshold ==>
                  r.tooWarm == Max(0.0, t.tooWarm - interval))
            && (t.contents == Full ==>
                  (h.contents == Melting <==> h.temp >= TooWarmThreshold && r.tooWarm >= TooWarmTooLong))
  {
  }

  /** A failed fan stays failed through a tick, unless the tick completes
      loading, which repairs it: the fan is back on and the cargo at -2
      degrees (app.js:284, 291, 346-348). */
  lemma FanFailureIsSticky(t: Truck, interval: real, rolls: Rolls, dist: (Point, Point) -> real)
    requires Drivable(t)
    requires t.fan == Failed
    ensures var r := Tick(t, interval, rolls, dist).truck;
            && (r.fan != Failed <==> t.state == Loading && t.timeOnTask + interval >= LoadingTime)
            && (r.fan != Failed ==> r.fan == On && r.temp == RepairedTemp)
  {
  }

  /** Cargo only becomes full again when loading completes; melting cargo
      never cools back to full on its own (app.js:326, 343). */
  lemma MeltingIsOneWay(t: Truck, interval: real, rolls: Rolls, dist: (Point, Point) -> real)
    requires Drivable(t)
    requires t.contents != Full
    ensures var r := Tick(t, interval, rolls, dist).truck;
            r.contents == Full <==> t.state == Loading && t.timeOnTask + interval >= LoadingTime
  {
  }

  /** Cargo only becomes empty when dumping or a delivery completes
      (app.js:360, 405). */
  lemma EmptyingOnlyOnCompletion(t: Truck, interval: real, rolls: Rolls, dist: (Point, Point) -> real)
    requires Drivable(t)
    requires t.contents != Empty
    ensures var r := Tick(t, interval, rolls, dist).truck;
            r.contents == Empty <==>
              || (t.state == Dumping && t.timeOnTask + interval >= DumpingTime)
              || (t.state == Delivering && t.timeOnTask + interval >= DeliverTime)
  {
  }

  /** On arrival the driving states finish: en route becomes delivering and
      returning picks the next task by what is aboard (app.js:365-398). */
  lemma ArrivalFinishesDrive(t: Truck, interval: real, rolls: Rolls, dist: (Point, Point) -> real)
    requires Drivable(t)
    requires Driving(t.state)
    ensures var r := Tick(t, interval, rolls, dist).truck;
            && r.current == Drive(Clocked(t, interval, rolls)).current
            && (Arrived(r, dist) <==> r.state != t.state)
            && (Arrived(r, dist) && t.state == Enroute ==> r.state == Delivering)
            && (Arrived(r, dist) && t.state == Returning ==>
                  var contents := Thermal(t, interval, rolls).contents;
                  && (contents == Empty ==> r.state == Loading)
                  && (contents == Full ==> r.state == Ready)
                  && (contents == Melting ==> r.state == Dumping))
  {
  }

  /** A tick from the start-up state with a draw that keeps the cargo cold
      leaves the truck ready with its clock pinned at zero. */
  lemma StartupTickStaysReady(dist: (Point, Point) -> real)
    ensures var r := Tick(Initial, DefaultInterval, Rolls(0.5, 0.5), dist).truck;
            && r.state == Ready
            && r.timeOnTask == 0.0
            && r.fan == On
            && r.temp == -2.5
            && r.contents == Full
            && r.tooWarm == 0.0
  {
  }

  /** A delivery that reaches 600 seconds empties the truck, plans the way
      home, and once the route arrives the truck is returning. */
  lemma DeliveryEndsReturning(t: Truck, interval: real, rolls: Rolls, result: OracleResult, dist: (Point, Point) -> real)
    requires t.state == Delivering && t.timeOnTask + interval == DeliverTime
    requires result.Routed? && Usable(result)
    ensures var s := Tick(t, interval, rolls, dist);
            var r := CompleteRoute(s.truck, s.planning.value.target, result, dist);
            && r.state == Returning
            && r.contents == Empty
            && r.route.path[|r.route.path| - 1] == Base
  {
  }

  /** Ticks at a fixed interval, one per draw, with no routing answer
      arriving in between. A parked `Ready` truck stays parked: its state,
      route, position and destination do not change, and each tick pins its
      clock to 0. */
  function Ticks(t: Truck, interval: real, draws: seq<Rolls>, dist: (Point, Point) -> real): (r: Truck)
    requires Drivable(t)
    ensures Drivable(r)
    ensures t.state == Ready ==>
              && r.state == Ready
              && r.route == t.route && r.current == t.current && r.destination == t.destination
              && (|draws| > 0 ==> r.timeOnTask == 0.0)
    decreases |draws|
  {
    if |draws| == 0 then t
    else Ticks(Tick(t, interval, draws[0], dist).truck, interval, draws[1..], dist)
  }

  /** Between starting to plan and the answer, any number of ticks leave the
      truck parked where it was, on its old route, heading for the same
      destination, so no tick drives a route that has not arrived
      (app.js:129-130). */
  lemma PlanningHoldsTruck(t: Truck, target: TaskState, interval: real, draws: seq<Rolls>, dist: (Point, Point) -> real)
    ensures var b := BeginRoute(t, target).truck;
            var r := Ticks(b, interval, draws, dist);
            && r.state == Ready
            && r.route == t.route
            && r.current == t.current
            && r.destination == t.destination
  {
  }
}

=== FILE: truck_types.dfy ===
/**
  The truck's state: the task, contents and fan enumerations, the route
  record with its cursor, the single truck record, and the fixed simulation
  constants of app.js.
 */
module TruckTypes {

  /** The six task states of the truck (app.js:18-25). */
  datatype TaskState = Ready | Enroute | Delivering | Returning | Loading | Dumping

  /** Condition of the cargo (app.js:27-31). */
  datatype Contents = Full | Melting | Empty

  /** Condition of the cooling fan (app.js:33-37). */
  datatype Fan = On | Off | Failed

  /** A geographic position in degrees. */
  datatype Point = Point(lat: real, lon: real)

  /** The one-shot message handed to the operator with the next telemetry record.
      `NoEvent` plays the role of the 'none' sentinel. */
  datatype Event =
    | NoEvent
    | UnableToAct(busy: TaskState)
    | UnableToActEmpty
    | NewCustomer(index: int)
    | InvalidCustomer(index: int)
    | AlreadyAtBase
    | AlreadyReturning
    | UnableToRecall(busy: TaskState)
    | RouteNotFound

  /** The planned route and the cursor into it: `path` holds the waypoints,
      `durations[i]` the time to drive from `path[i]` to `path[i+1]`,
      `section` the segment the truck is on and `completed` the time spent on
      the segments before it. */
  datatype Route = Route(path: seq<Point>, durations: seq<real>, section: nat, completed: real)

  /** Everything the simulation keeps between ticks. */
  datatype Truck = Truck(
    state: TaskState,
    contents: Contents,
    fan: Fan,
    temp: real,
    timeOnTask: real,
    tooWarm: real,
    current: Point,
    destination: Point,
    optimal: real,
    event: Event,
    route: Route)

  datatype Option<T> = None | Some(value: T)

  /** A request to the routing service: plan from `from` to `to` and, once the
      route arrives, switch the truck to `target`. */
  datatype Request = Request(from: Point, to: Point, target: TaskState)

  /** The result of one synchronous step: the new truck and, when the step
      started route planning, the request that is now in flight. */
  datatype Step = Step(truck: Truck, planning: Option<Request>)

  const DeliverTime: real := 600.0
  const LoadingTime: real := 800.0
  const DumpingTime: real := 400.0
  const TooWarmThreshold: real := 2.0
  const TooWarmTooLong: real := 60.0
  const DefaultInterval: real := 60.0
  const ArrivalRadius: real := 10.0
  const StartTemp: real := -2.0
  const RepairedTemp: real := -2.0
  const DefaultOptimal: real := -5.0

  const Base: Point := Point(47.644702, -122.130137)

  const Customers: seq<Point> := [
    Point(47.645892, -122.336954),
    Point(47.688741, -122.402965),
    Point(47.551093, -122.249266),
    Point(47.555698, -122.065996),
    Point(47.663747, -122.120879),
    Point(47.857295, -122.316355),
    Point(47.530250, -122.393055),
    Point(47.503266, -122.200194),
    Point(47.591094, -122.226833),
    Point(47.544120, -122.221673)
  ]

  /** The truck at start-up: at base, full, fan on, ready, no route yet. */
  const Initial: Truck := Truck(Ready, Full, On, StartTemp, 0.0, 0.0, Base, Base,
                                DefaultOptimal, NoEvent, Route([], [], 0, 0.0))

  /** True for the two states in which the truck drives along its route. */
  predicate Driving(s: TaskState) {
    s == Enroute || s == Returning
  }

  /** The route's cursor may be dereferenced: one more waypoint than
      segments, and the cursor on a segment. */
  predicate CursorValid(r: Route) {
    && |r.path| == |r.durations| + 1
    && r.section < |r.durations|
  }

  /** A truck whose position may be advanced: whenever it is driving, its
      route's cursor is valid. */
  predicate Drivable(t: Truck) {
    Driving(t.state) ==> CursorValid(t.route)
  }

  /** Sum of a sequence, peeled from the back so that prefix sums extend by
      one element at a time. */
  function Sum(s: seq<real>): real {
    if |s| == 0 then 0.0 else Sum(s[..|s| - 1]) + s[|s| - 1]
  }

  function Min(a: real, b: real): real {
    if a <= b then a else b
  }

  function Max(a: real, b: real): real {
    if a >= b then a else b
  }

  /** Linear interpolation from `a` towards `b` by fraction `f`. */
  function Lerp(a: Point, b: Point, f: real): Point {
    Point(a.lat + f * (b.lat - a.lat), a.lon + f * (b.lon - a.lon))
  }

  /** `p` lies on the straight segment from `a` to `b`. */
  ghost predicate OnSegment(p: Point, a: Point, b: Point) {
    exists f: real :: 0.0 <= f <= 1.0 && p == Lerp(a, b, f)
  }

  /** All segment durations are positive. */
  predicate PositiveDurations(d: seq<real>) {
    forall i :: 0 <= i < |d| ==> d[i] > 0.0
  }

  /** Appending one element adds it to the sum. */
  lemma SumSnoc(s: seq<real>, x: real)
    ensures Sum(s + [x]) == Sum(s) + x
  {
    assert (s + [x])[..|s|] == s;
  }

  /** Prefix sums grow by the next element. */
  lemma SumPrefixStep(s: seq<real>, i: nat)
    requires i < |s|
    ensures Sum(s[..i + 1]) == Sum(s[..i]) + s[i]
  {
    assert s[..i + 1] == s[..i] + [s[i]];
    SumSnoc(s[..i], s[i]);
  }

  /** With positive elements, every proper prefix sum is below the total. */
  lemma {:induction false} PrefixBelowTotal(s: seq<real>, i: nat)
    requires PositiveDurations(s)
    requires i < |s|
    ensures Sum(s[..i]) < Sum(s)
    decreases |s| - i
  {
    SumPrefixStep(s, i);
    if i + 1 < |s| {
      PrefixBelowTotal(s, i + 1);
    } else {
      assert s[..i + 1] == s;
    }
  }
}
